=== FILE: README.md ===
# Chiku-DB storage driver, modelled in Dafny

Chiku-DB is an embedded document store. It keeps each record as one JSON file, `<base>/<collection>/<resource>.json`. A driver is bound to a base directory and offers five operations:

- `Write` encodes a value to a temporary file and renames it onto the record file.
- `Read` decodes one record.
- `ReadAll` returns the raw body of every entry in a collection directory.
- `Delete` removes a record or a whole collection.
- `New` binds a driver to a base directory, creating it if needed.

Writes and deletes take a per-collection lock. The driver finds that lock in a registry it fills lazily (`GetOrCreateMutex`).

This project models that driver as a state machine over an immutable, map-based filesystem. `New`, `Write` and `Delete` are pure functions that return a result or error together with the new driver and the new filesystem. `Read` and `ReadAll` never change state, so they take the driver and the filesystem and return only a result or error.

## Layout

- `paths.dfy` (`Paths`): a path is a sequence of segments below the working directory. The empty path stands for ".". This file also models `filepath.Join`, which drops empty names. `path + suffix` extends the last segment.
- `results.dfy` (`Results`): the error kinds and the `Result` and `Option` types. The error kinds are validation messages, the OS errors the driver can meet (ENOENT, ENOTDIR, EISDIR, EEXIST, ENOTEMPTY, EINVAL), the driver's own "unable to find" error, and codec failure.
- `names.dfy` (`Names`): Go's byte-wise string order and the sorted name list that `ioutil.ReadDir` returns.
- `filesystem.dfy` (`Os`): the filesystem is a map from path to `Dir` or `File(bytes)`. A subset type guarantees that every key's parent is a directory. This file also models the os calls the driver makes: `Stat`/`Lstat`, `Mkdir`, `MkdirAll`, `WriteFile`, `Rename`, `Remove`, `RemoveAll`, `ReadFile` and `ReadDir`.
- `registry.dfy` (`Registry`): the mutex registry. It maps each collection name to a lock identity. A fresh lock is one that no collection holds yet.
- `driver.dfy` (`Storage`): `New`, `Stat`, `Write`, `Read`, `ReadAll` and `Delete`, plus the path conventions they share.
- `properties.dfy` (`Properties`): lemmas that relate several operations.

The model keeps the driver's quirks as they are in the source:

- `Read` probes the bare path with `Stat` but always reads `<path>.json`. `Storage.ReadBody` proves that the probe never changes the outcome: the read succeeds exactly when the `.json` file is a regular file.
- `Delete` does not validate names. An empty resource makes the joined path the collection directory, so the whole collection is removed (`Properties.DeleteCollection`). Two more cases follow from how `Stat` resolves the path:
  - If `Stat` finds a directory only at `<path>.json`, `Delete` calls `RemoveAll` on the missing bare path. It reports success and removes nothing.
  - If the bare path is a regular file, `Delete` removes `<path>.json`, not the bare path.
- `ReadAll` returns a stray `.tmp` file as a record of its own (`Properties.StrayTempIsRead`). It fails when any entry is a directory.
- `New` reuses any existing node at the base path, even a regular file.
- `Write` registers the collection's lock before touching the filesystem. Its later failures (collection path blocked by a file, codec error, temporary or record path occupied by a directory) can leave the registry entry and freshly created directories behind. They never touch the record file.
- Every write that passes validation, and every delete, adds the collection to the registry, even when the operation then fails. Delete does this even for the empty collection name.

## Model

| member | source | states |
|---|---|---|
| Registry.GetOrCreateMutex | main.go:235-246 | afterwards the collection has a lock; an existing lock is returned and the registry is unchanged; otherwise a lock no other collection holds is added under that one key |
| Registry.GetOrCreateMutexIdempotent | main.go:239-245 | a second call for the same collection returns the same lock and leaves the registry as the first call left it |
| Registry.GetOrCreateMutexGrowsByOne | main.go:239-243 | the registry gains at most the one key, and every existing key keeps its lock |
| Storage.CollectionDir | main.go:143 | the collection directory is the base directory with the collection name appended; an empty name is dropped by the join, leaving the base directory |
| Storage.RecordPath | main.go:216 | the bare record path is base, collection and resource joined with empty names dropped; with an empty resource it is the collection directory itself |
| Storage.RecordFile | main.go:148 | the record file is `<resource>.json` directly inside the collection directory |
| Registry.Empty | main.go:107 | a freshly constructed driver's registry holds no lock |
| Os.Lookup | main.go:124 | an existing path yields its node ("." is always a directory); ENOTDIR exactly when the path is missing and a proper prefix is a regular file; ENOENT otherwise |
| Os.Mkdir | main.go:117 | creating a directory succeeds exactly when the path does not exist and its parent is a directory, and then adds exactly that directory |
| Os.WriteFile | main.go:158 | writing a file succeeds exactly when the path is not a directory and its parent is one; the path then holds exactly the bytes and nothing else changes |
| Os.Rename | main.go:162 | renaming a regular file succeeds exactly when the target is not a directory and its parent is one; a directory target gives EEXIST; on success the source is gone and the target holds the source's node |
| Os.ReadFile | main.go:179 | reading succeeds exactly on a regular file and yields its bytes |
| Os.ReadDir | main.go:197 | listing succeeds exactly on a directory and yields its entries' names sorted |
| Os.RemoveAll | main.go:227 | "." is refused with EINVAL; a regular file among the proper prefixes gives ENOTDIR; otherwise the path and everything beneath it is removed, a missing path being no error, and every other entry keeps its node |
| Os.Remove | main.go:229 | removal succeeds exactly on a regular file or an empty directory and removes exactly that entry |
| Storage.New | main.go:111-120 | an existing base path (of any kind) is reused and the filesystem is unchanged; a missing one is created, and only it, exactly when its parent is a directory; on error nothing changes; the driver starts with an empty registry |
| Storage.Stat | main.go:123-128 | an existing path yields its own node, "." a directory; only when it does not exist does the result come from `path + ".json"`, succeeding exactly when that exists |
| Storage.Write | main.go:130-163 | an empty collection or resource gives that validation error and changes neither registry nor filesystem; otherwise the collection's lock is registered; success exactly when no prefix of the collection path is a file, encoding succeeds, and neither the temporary nor the record path is a directory; on success the record file holds the encoding plus one newline, the temporary file is gone, every prefix of the collection directory is a directory and no other path changes; on failure nothing but the temporary file and the collection directory's prefixes changes; with the collection path clear, an encoding failure gives the codec error |
| Storage.Persist | main.go:143-162 | with valid names, storing succeeds exactly when no prefix of the collection path is a regular file, encoding succeeds, and neither the temporary nor the record path is a directory; failures leave the record file and everything off the collection path untouched; with the collection path clear, an encoding failure gives the codec error |
| Storage.Commit | main.go:148-162 | writing the temporary file then renaming it succeeds exactly when neither path is a directory; it then equals the old state with the temporary file removed and the record file set to the bytes; on failure the record file is untouched |
| Storage.TempFile | main.go:148-149 | the temporary file sits beside the record file in the collection directory and is never the record file |
| Os.MkdirAll | main.go:143-146 | creating the collection directory succeeds exactly when no prefix of it is a regular file; then every prefix is a directory, existing entries keep their nodes, and nothing off the path changes |
| Storage.ReadBody | main.go:165-182 | empty collection or resource gives the matching validation message; otherwise the read succeeds exactly when `<collection>/<resource>.json` is a regular file, whatever the bare-path probe found, and yields its bytes; when that file is missing and no prefix of it is a regular file the error is ENOENT on `<resource>.json` |
| Storage.Read | main.go:165-185 | errors of the raw read are passed through; otherwise the result is the decoding of the record file, a decoding failure giving the codec error |
| Storage.ReadBodies | main.go:202-212 | reading a list of entries succeeds exactly when every entry is a regular file, with one body per entry in order; otherwise it returns an error and no partial result |
| Storage.ReadAll | main.go:187-213 | empty collection gives the validation error; success exactly when the collection path is a directory whose entries are all regular files; then one body per entry, in sorted name order; a missing collection directory with no regular file on its path gives a not-exist error |
| Names.Sorted | main.go:197 | the listing contains each name of the directory exactly once, in strictly increasing byte order |
| Storage.Delete | main.go:215-233 | the collection's lock is registered; when neither the joined path nor `path + ".json"` exists the result is the not-found error and nothing changes; a directory at the path is removed with everything beneath it; a regular file at the path removes `path + ".json"` (success exactly when that is a file or an empty directory); a missing path with a file at `path + ".json"` removes that file; with a directory there it succeeds and changes nothing; the path "." is refused |
| Properties.WriteThenReadBody | main.go:148-182 | after a successful write, reading the record yields exactly the encoded bytes followed by one newline |
| Properties.WriteThenRead | main.go:151-184 | when decoding inverts encoding on the value, reading back after a successful write yields the value written |
| Properties.WriteLeavesOtherRecords | main.go:143-162 | any write, successful or not, leaves every other record's read outcome and bytes unchanged |
| Properties.WriteTwiceIsWriteOnce | main.go:139-162 | writing the same value again succeeds and leaves driver and filesystem exactly as the first write left them |
| Properties.FreshWriteThenReadAll | main.go:187-212 | the first successful write into a collection that did not exist makes `ReadAll` return exactly that one body |
| Storage.StoredListing | main.go:148-162 | a successful store changes its directory's listing by exactly the record file appearing and the temporary file disappearing, and every other entry keeps its node |
| Properties.WriteListing | main.go:143-162 | after one successful write into any collection, existing entries included, the record file holds the encoding plus a newline, the temporary name is no longer listed, and every other entry keeps its node |
| Properties.WriteEachListing | main.go:143-162 | after a run of successful writes into one collection its listing is the old listing without the temporary names plus the record names, and every entry not named after a written resource keeps its node |
| Properties.WriteEachContents | main.go:148-162 | after a run of successful writes of distinct resources each record file holds the encoding of the value written under its name |
| Properties.WritesThenReadAll | main.go:187-212 | after N successful writes of distinct resources into a collection with no entries, `ReadAll` returns exactly N bodies, these are exactly the encodings of the values written, and the k-th body is the encoding of the value written under the k-th record file name in sorted order |
| Properties.ReadAllOfRecords | main.go:197-212 | a collection directory holding exactly the record files of distinct resources reads as exactly as many bodies as resources, these are their encodings, and the k-th body is the encoding of the value of the resource whose record file is the k-th name in sorted order |
| Properties.StrayTempIsRead | main.go:197-210 | a collection holding a record and its leftover temporary file reads as both bodies, record first |
| Properties.DeleteCollection | main.go:215-227 | deleting with an empty resource removes the collection directory and everything beneath it and nothing else; afterwards `ReadAll` fails with a not-exist error and every `Read` in it fails, with ENOENT on the record file for a non-empty resource |
| Properties.WriteThenDelete | main.go:221-229 | when no entry has the bare resource name, deleting a freshly written record succeeds, removes exactly its `.json` file, and a later read fails |

## Left out

- The JSON codec (`json.MarshalIndent`, `json.Unmarshal`). It is a foreign library, so it becomes the parameters `marshal: T -> Option<Bytes>` and `unmarshal: Bytes -> Option<T>`. The round-trip lemma assumes decoding inverts encoding on the value in question. `string(b)` in `ReadAll` is a byte-preserving conversion, so bodies are returned as bytes.
- File names that are not valid UTF-8. Names are Dafny strings of Unicode scalar values, while Linux file names and Go strings are arbitrary bytes. The claim that the character order used for sorting equals Go's byte order holds only for valid UTF-8.
- `filepath.Clean` and path normalisation. Collection and resource names are opaque single segments. Separators, "." and ".." inside a name are not interpreted. The base directory is taken as already cleaned.
- File kinds other than directories and regular files (FIFOs, sockets, devices). `Delete` returns success without removing anything when `Stat` finds one (main.go:231-232); a node is only `Dir` or `File` here, so that branch has no counterpart.
- Permissions (0755, 0644), symbolic links, OS error kinds beyond the ones listed above, and I/O failures such as a full disk or permission denied. None of these have a model counterpart. An operation fails only for the structural reasons the model can express.
- Os.MkdirAll: Go's MkdirAll re-checks after a failed `Mkdir`, to tolerate a concurrent creator. Concurrency is not modelled, so in the model `Mkdir` never fails at that point and the re-check is omitted.
- Crash consistency. `Rename` is one atomic step, and a crash between the temporary write and the rename is not modelled. `Properties.StrayTempIsRead` covers what such a leftover file does to `ReadAll`.
- Locking and concurrency. `sync.Mutex` lock and unlock, the deferred unlock and the registry-wide mutex are left out. Only the registry map and the identity of each lock are modelled, not blocking or interleavings.
- Renaming a directory. `Os.Rename` is defined for a regular-file source only, because the driver renames only the temporary file it has just written.
- The logger and the `Options` plumbing (`lumber`, `Logger`, `Options`), which are diagnostic only. Also the demo `main` and its sample data, and the duplicate type declarations in `models.go`.
- Storage.Read: the Go `Read` fills a caller-supplied container in place. The model returns the decoded value instead.

=== FILE: driver.dfy ===
/** The storage driver: a base directory, a mutex registry, and the five
    operations on collections (directories) of records (`<name>.json` files).

    Every operation is a pure function from the driver and the filesystem to
    its result together with the new driver and filesystem. Locking is
    reduced to the registry entry each write or delete creates; the logger is
    not modelled.
 */
module Storage {
  import opened Paths
  import opened Results
  import opened Os
  import opened Registry
  import Names

  /** Suffix of a stored record. */
  const Extension := ".json"
  /** Suffix of the temporary file a write goes through. */
  const TempSuffix := ".tmp"
  /** The line terminator appended to every encoded record. */
  const Newline: byte := 10

  const WriteNoCollection := "Missing Collection - no place to save record!"
  const WriteNoResource := "Missing Resource - unable to save record(no name)!"
  const ReadNoCollection := "Missing collection - Unable to read!"
  const ReadNoResource := "Missing resource - unable to read record(no name)! "

  datatype Driver = Driver(dir: Path, mutexes: Mutexes)

  /** What a state-changing operation returns: its result and the new state. */
  datatype Effect<+T> = Effect(result: Result<T>, driver: Driver, fs: FileSystem)

  /** The directory of a collection, `filepath.Join(d.Dir, collection)`. */
  function CollectionDir(d: Driver, collection: string): (p: Path)
    ensures collection != "" ==> p == d.dir + [collection]
    ensures collection == "" ==> p == d.dir
  {
    Join(d.dir, [collection])
  }

  /** The bare path of a record, `filepath.Join(d.Dir, collection, resource)`;
      an empty name is dropped by the join. */
  function RecordPath(d: Driver, collection: string, resource: string): (p: Path)
    ensures collection != "" && resource != "" ==> p == d.dir + [collection, resource]
    ensures resource == "" ==> p == CollectionDir(d, collection)
  {
    assert [collection, resource][1..] == [resource] && [resource][1..] == [];
    assert Segments([resource]) == (if resource == "" then [] else [resource]);
    assert Segments([collection]) == (if collection == "" then [] else [collection]);
    Join(d.dir, [collection, resource])
  }

  /** The file a record is stored in, `<collection dir>/<resource>.json`. */
  function RecordFile(d: Driver, collection: string, resource: string): (p: Path)
    ensures collection != "" ==> p == d.dir + [collection, resource + Extension]
  {
    Join(CollectionDir(d, collection), [resource + Extension])
  }

  /** The temporary file a write goes through, `<record file>.tmp`. */
  function TempFile(d: Driver, collection: string, resource: string): (p: Path)
    ensures collection != "" ==> p == d.dir + [collection, resource + Extension + TempSuffix]
    ensures collection != "" ==> p != RecordFile(d, collection, resource)
  {
    var p := AddSuffix(RecordFile(d, collection, resource), TempSuffix);
    assert collection != "" ==> |p[|p| - 1]| != |RecordFile(d, collection, resource)[|p| - 1]|;
    p
  }

  /** `New`: binds a driver to `dir`. An existing `dir` is reused as it is,
      whatever kind of node it is; a missing one is created, and only it. */
  function New(fs: FileSystem, dir: Path): (r: (Result<Driver>, FileSystem))
    ensures Exists(fs, dir) ==> r.0.Ok? && r.1 == fs
    ensures !Exists(fs, dir) ==> (r.0.Ok? <==> IsDirAt(fs, Parent(dir)))
    ensures !Exists(fs, dir) && r.0.Ok? ==> r.1 == fs[dir := Dir] && IsDirAt(r.1, dir)
    ensures r.0.Err? ==> r.1 == fs
    ensures r.0.Ok? ==> r.0.value.dir == dir && r.0.value.mutexes.locks == map[]
  {
    var driver := Driver(dir, Empty());
    if Lookup(fs, dir).Ok? then (Ok(driver), fs)
    else
      match Mkdir(fs, dir)
      case Err(e) => (Err(e), fs)
      case Ok(fs') => (Ok(driver), fs')
  }

  /** `Stat`: the node at `p`; only when `p` does not exist (ENOENT, not
      ENOTDIR) the node at `p + ".json"`. */
  function Stat(fs: FileSystem, p: Path): (r: Result<Node>)
    ensures Exists(fs, p) ==> r.Ok? && (p != [] ==> r.value == fs[p])
    ensures p == [] ==> r == Ok(Dir)
    ensures !Exists(fs, p) ==> (r.Ok? <==> AddSuffix(p, Extension) in fs)
    ensures !Exists(fs, p) && r.Ok? ==> r.value == fs[AddSuffix(p, Extension)]
    ensures !Exists(fs, p) && !FileAncestor(fs, p) && AddSuffix(p, Extension) !in fs ==>
      r == Err(NotExist(AddSuffix(p, Extension)))
  {
    match Lookup(fs, p)
    case Ok(n) => Ok(n)
    case Err(NotExist(_)) =>
      SameAncestors(fs, p, AddSuffix(p, Extension));
      Lookup(fs, AddSuffix(p, Extension))
    case Err(e) =>
      FileAncestorExcludes(fs, p, AddSuffix(p, Extension));
      Err(e)
  }

  /** `fs'` is `fs` after storing `b` as `resource` in directory `dir`: the
      record file holds exactly `b`, the temporary file is gone, every prefix
      of `dir` is a directory, and no other path changed. */
  ghost predicate Stored(fs: FileSystem, fs': FileSystem, dir: Path, resource: string, b: Bytes) {
    var final := dir + [resource + Extension];
    var temp := dir + [resource + Extension + TempSuffix];
    && IsFileAt(fs', final) && fs'[final].bytes == b
    && temp !in fs'
    && (forall k :: 0 < k <= |dir| ==> IsDirAt(fs', dir[..k]))
    && forall q :: (q != final && q != temp && !OnPath(q, dir)) ==> Same(fs, fs', q)
  }

  /** Storing a record changes the listing of its directory by exactly that
      record's file appearing and its temporary file disappearing; every
      other entry keeps its node. */
  lemma StoredListing(fs: FileSystem, fs': FileSystem, dir: Path, resource: string, b: Bytes)
    requires Stored(fs, fs', dir, resource, b)
    ensures Children(fs', dir) ==
      (Children(fs, dir) - {resource + Extension + TempSuffix}) + {resource + Extension}
    ensures forall n :: n != resource + Extension && n != resource + Extension + TempSuffix ==>
      Same(fs, fs', dir + [n])
  {
    var name := resource + Extension;
    var temp := name + TempSuffix;
    forall n | n != name && n != temp
      ensures Same(fs, fs', dir + [n])
    {
      var q := dir + [n];
      assert q[|dir|] == n && (dir + [name])[|dir|] == name && (dir + [temp])[|dir|] == temp;
      assert !OnPath(q, dir);
    }
    forall n
      ensures n in Children(fs', dir) <==> n in (Children(fs, dir) - {temp}) + {name}
    {
      ChildIff(fs, dir, n);
      ChildIff(fs', dir, n);
    }
  }

  /** `fs'` differs from `fs` at most in the temporary file of `resource` and
      in the prefixes of `dir`; in particular the record file is untouched. */
  ghost predicate Untouched(fs: FileSystem, fs': FileSystem, dir: Path, resource: string) {
    forall q :: (q != dir + [resource + Extension + TempSuffix] && !OnPath(q, dir)) ==> Same(fs, fs', q)
  }

  /** `Driver.Write`: validates both names, registers the collection's lock,
      then stores `marshal(v)` and a newline as the record. */
  function Write<T>(d: Driver, fs: FileSystem, collection: string, resource: string, v: T,
                    marshal: T -> Option<Bytes>): (e: Effect<()>)
    ensures collection == "" ==> e == Effect(Err(Validation(WriteNoCollection)), d, fs)
    ensures collection != "" && resource == "" ==> e == Effect(Err(Validation(WriteNoResource)), d, fs)
    ensures collection != "" && resource != "" ==>
      e.driver == d.(mutexes := GetOrCreateMutex(d.mutexes, collection).1)
    ensures e.result.Ok? <==>
      && collection != "" && resource != ""
      && NoFileOnPath(fs, CollectionDir(d, collection))
      && marshal(v).Some?
      && !IsDirAt(fs, TempFile(d, collection, resource))
      && !IsDirAt(fs, RecordFile(d, collection, resource))
    ensures collection != "" && resource != "" && NoFileOnPath(fs, CollectionDir(d, collection)) && marshal(v).None? ==>
      e.result == Err(Codec)
    ensures e.result.Ok? ==> Stored(fs, e.fs, CollectionDir(d, collection), resource, marshal(v).value + [Newline])
    ensures e.result.Err? ==> Untouched(fs, e.fs, CollectionDir(d, collection), resource)
  {
    if collection == "" then Effect(Err(Validation(WriteNoCollection)), d, fs)
    else if resource == "" then Effect(Err(Validation(WriteNoResource)), d, fs)
    else
      var d1 := d.(mutexes := GetOrCreateMutex(d.mutexes, collection).1);
      var (result, fs') := Persist(fs, CollectionDir(d, collection), resource, marshal(v));
      Effect(result, d1, fs')
  }

  /** The filesystem part of `Driver.Write` once the names are valid: create
      the collection directory `dir`, fail on an encoding error, then commit
      the encoding and a newline. */
  function Persist(fs: FileSystem, dir: Path, resource: string, encoded: Option<Bytes>): (r: (Result<()>, FileSystem))
    requires dir != []
    ensures r.0.Ok? <==>
      && NoFileOnPath(fs, dir)
      && encoded.Some?
      && !IsDirAt(fs, dir + [resource + Extension + TempSuffix])
      && !IsDirAt(fs, dir + [resource + Extension])
    ensures NoFileOnPath(fs, dir) && encoded.None? ==> r.0 == Err(Codec)
    ensures r.0.Ok? ==> Stored(fs, r.1, dir, resource, encoded.value + [Newline])
    ensures r.0.Err? ==> Untouched(fs, r.1, dir, resource)
  {
    assert dir[..|dir|] == dir;
    match MkdirAll(fs, dir)
    case Err(err) => (Err(err), fs)
    case Ok(fs1) =>
      assert Same(fs, fs1, dir + [resource + Extension + TempSuffix]);
      assert Same(fs, fs1, dir + [resource + Extension]);
      match encoded
      case None => (Err(Codec), fs1)
      case Some(b) =>
        var (result, fs2) := Commit(fs1, dir, resource, b + [Newline]);
        WriteFrame(fs, fs1, fs2, dir, resource, b + [Newline], result.Ok?);
        (result, fs2)
  }

  /** How the filesystem after a write relates to the one before, given that
      `MkdirAll` made `dir` and the commit either succeeded or left everything
      but the temporary file alone. */
  lemma WriteFrame(fs: FileSystem, fs1: FileSystem, fs2: FileSystem, dir: Path, resource: string, b: Bytes, ok: bool)
    requires dir != [] && MkdirAll(fs, dir) == Ok(fs1)
    requires var final := dir + [resource + Extension]; var temp := dir + [resource + Extension + TempSuffix];
      ok ==> fs2 == (fs1 - {temp})[final := File(b)]
    requires var temp := dir + [resource + Extension + TempSuffix];
      !ok ==> forall q :: q != temp ==> Same(fs1, fs2, q)
    ensures ok ==> Stored(fs, fs2, dir, resource, b)
    ensures !ok ==> Untouched(fs, fs2, dir, resource)
  {
    var final := dir + [resource + Extension];
    var temp := dir + [resource + Extension + TempSuffix];
    assert |temp[|dir|]| != |final[|dir|]|;
    if ok {
      forall k | 0 < k <= |dir|
        ensures IsDirAt(fs2, dir[..k])
      {
        assert |dir[..k]| < |temp|;
      }
    } else {
      forall q | q != temp && !OnPath(q, dir)
        ensures Same(fs, fs2, q)
      {
        assert Same(fs, fs1, q) && Same(fs1, fs2, q);
      }
    }
  }

  /** The last two steps of a write, once the collection directory `dir`
      exists: write the temporary file, then rename it onto the record file.
      On success the record file holds `b`, the temporary file is gone and
      nothing else changes; on failure the record file is untouched. */
  function Commit(fs: FileSystem, dir: Path, resource: string, b: Bytes): (r: (Result<()>, FileSystem))
    requires dir != [] && IsDirAt(fs, dir)
    ensures var final := dir + [resource + Extension]; var temp := dir + [resource + Extension + TempSuffix];
      r.0.Ok? <==> !IsDirAt(fs, temp) && !IsDirAt(fs, final)
    ensures var final := dir + [resource + Extension]; var temp := dir + [resource + Extension + TempSuffix];
      r.0.Ok? ==> r.1 == (fs - {temp})[final := File(b)]
    ensures var temp := dir + [resource + Extension + TempSuffix];
      r.0.Err? ==> forall q :: q != temp ==> Same(fs, r.1, q)
  {
    var final := Join(dir, [resource + Extension]);
    var temp := AddSuffix(final, TempSuffix);
    assert final == dir + [resource + Extension] && temp == dir + [resource + Extension + TempSuffix];
    assert |temp[|dir|]| != |final[|dir|]|;
    assert Parent(temp) == dir && Parent(final) == dir;
    match WriteFile(fs, temp, b)
    case Err(err) => (Err(err), fs)
    case Ok(fs1) =>
      match Rename(fs1, temp, final)
      case Err(err) => (Err(err), fs1)
      case Ok(fs2) =>
        assert fs2 == (fs - {temp})[final := File(b)];
        (Ok(()), fs2)
  }

  /** `Driver.Read` up to the decoding step: validates both names, probes the
      bare record path with `Stat`, then reads `<record>.json` whatever the
      probe found. Reading never changes the driver or the filesystem. */
  function ReadBody(d: Driver, fs: FileSystem, collection: string, resource: string): (r: Result<Bytes>)
    ensures collection == "" ==> r == Err(Validation(ReadNoCollection))
    ensures collection != "" && resource == "" ==> r == Err(Validation(ReadNoResource))
    ensures collection != "" && resource != "" ==>
      (r.Ok? <==> IsFileAt(fs, RecordFile(d, collection, resource)))
    ensures r.Ok? ==> r.value == fs[RecordFile(d, collection, resource)].bytes
    ensures var file := RecordFile(d, collection, resource);
      collection != "" && resource != "" && !Exists(fs, file) && !FileAncestor(fs, file) ==> r == Err(NotExist(file))
  {
    if collection == "" then Err(Validation(ReadNoCollection))
    else if resource == "" then Err(Validation(ReadNoResource))
    else
      var record := RecordPath(d, collection, resource);
      assert AddSuffix(record, Extension) == RecordFile(d, collection, resource);
      SameAncestors(fs, record, AddSuffix(record, Extension));
      match Stat(fs, record)
      case Err(e) => Err(e)
      case Ok(_) => ReadFile(fs, AddSuffix(record, Extension))
  }

  /** `Driver.Read`: the record decoded with `unmarshal`. */
  function Read<T>(d: Driver, fs: FileSystem, collection: string, resource: string,
                   unmarshal: Bytes -> Option<T>): (r: Result<T>)
    ensures ReadBody(d, fs, collection, resource).Err? ==> r == Err(ReadBody(d, fs, collection, resource).error)
    ensures ReadBody(d, fs, collection, resource).Ok? ==>
      (r.Ok? <==> unmarshal(fs[RecordFile(d, collection, resource)].bytes).Some?)
    ensures ReadBody(d, fs, collection, resource).Ok? && unmarshal(ReadBody(d, fs, collection, resource).value).None? ==>
      r == Err(Codec)
    ensures r.Ok? ==> unmarshal(fs[RecordFile(d, collection, resource)].bytes) == Some(r.value)
  {
    match ReadBody(d, fs, collection, resource)
    case Err(e) => Err(e)
    case Ok(b) =>
      match unmarshal(b)
      case None => Err(Codec)
      case Some(v) => Ok(v)
  }

  /** The read loop of `Driver.ReadAll`: the contents of `dir/<name>` for
      every name in order, or the first read error. */
  function ReadBodies(fs: FileSystem, dir: Path, names: seq<string>): (r: Result<seq<Bytes>>)
    ensures r.Ok? <==> forall i :: 0 <= i < |names| ==> IsFileAt(fs, dir + [names[i]])
    ensures r.Ok? ==> |r.value| == |names|
    ensures r.Ok? ==> forall i :: 0 <= i < |names| ==> r.value[i] == fs[dir + [names[i]]].bytes
    decreases |names|
  {
    if names == [] then Ok([])
    else
      match ReadFile(fs, dir + [names[0]])
      case Err(e) => Err(e)
      case Ok(b) =>
        match ReadBodies(fs, dir, names[1..])
        case Err(e) => Err(e)
        case Ok(rest) => Ok([b] + rest)
  }

  /** `Driver.ReadAll`: the raw body of every entry of the collection
      directory, in listing (name) order; an entry that is not a regular file
      fails the whole call. */
  function ReadAll(d: Driver, fs: FileSystem, collection: string): (r: Result<seq<Bytes>>)
    ensures collection == "" ==> r == Err(Validation(ReadNoCollection))
    ensures r.Ok? <==>
      && collection != ""
      && IsDirAt(fs, CollectionDir(d, collection))
      && forall n :: n in Children(fs, CollectionDir(d, collection)) ==> IsFileAt(fs, CollectionDir(d, collection) + [n])
    ensures r.Ok? ==>
      var names := Names.Sorted(Children(fs, CollectionDir(d, collection)));
      && |r.value| == |names|
      && forall i :: 0 <= i < |names| ==> r.value[i] == fs[CollectionDir(d, collection) + [names[i]]].bytes
    ensures collection != "" && !Exists(fs, CollectionDir(d, collection)) && !FileAncestor(fs, CollectionDir(d, collection)) ==>
      r.Err? && r.error.NotExist?
  {
    if collection == "" then Err(Validation(ReadNoCollection))
    else
      var dir := CollectionDir(d, collection);
      match Stat(fs, dir)
      case Err(e) => Err(e)
      case Ok(_) =>
        match ReadDir(fs, dir)
        case Err(e) => Err(e)
        case Ok(names) => ReadBodies(fs, dir, names)
  }

  /** `Driver.Delete`: registers the collection's lock, resolves the bare
      path with `Stat` and removes the bare path recursively when `Stat` found
      a directory, or `<bare path>.json` when it found a regular file. Names
      are not validated. */
  function Delete(d: Driver, fs: FileSystem, collection: string, resource: string): (e: Effect<()>)
    ensures e.driver == d.(mutexes := GetOrCreateMutex(d.mutexes, collection).1)
    ensures var p := RecordPath(d, collection, resource);
      !Exists(fs, p) && AddSuffix(p, Extension) !in fs ==> e.result == Err(NotFound(p)) && e.fs == fs
    ensures var p := RecordPath(d, collection, resource);
      p != [] && IsDirAt(fs, p) ==>
        && e.result.Ok?
        && (forall q :: q in e.fs <==> q in fs && !Within(q, p))
        && (forall q :: q in e.fs ==> e.fs[q] == fs[q])
    ensures RecordPath(d, collection, resource) == [] ==>
      e.result == Err(Invalid([])) && e.fs == fs
    ensures var p := RecordPath(d, collection, resource); var j := AddSuffix(p, Extension);
      IsFileAt(fs, p) ==>
        && (e.result.Ok? <==> j in fs && (fs[j].File? || Children(fs, j) == {}))
        && e.fs == (if e.result.Ok? then fs - {j} else fs)
    ensures var p := RecordPath(d, collection, resource); var j := AddSuffix(p, Extension);
      !Exists(fs, p) && IsFileAt(fs, j) ==> e.result.Ok? && e.fs == fs - {j}
    ensures var p := RecordPath(d, collection, resource); var j := AddSuffix(p, Extension);
      !Exists(fs, p) && IsDirAt(fs, j) ==> e.result.Ok? && e.fs == fs
  {
    var path := RecordPath(d, collection, resource);
    var d1 := d.(mutexes := GetOrCreateMutex(d.mutexes, collection).1);
    match Stat(fs, path)
    case Err(_) => Effect(Err(NotFound(path)), d1, fs)
    case Ok(Dir) =>
      StatDirHasNoFileAncestor(fs, path);
      (match RemoveAll(fs, path)
      case Err(err) => Effect(Err(err), d1, fs)
      case Ok(fs') =>
        assert !Exists(fs, path) ==> fs' == fs by {
          if !Exists(fs, path) {
            RemoveAllMissing(fs, path);
          }
        }
        Effect(Ok(()), d1, fs'))
    case Ok(File(_)) =>
      match Remove(fs, AddSuffix(path, Extension))
      case Err(err) => Effect(Err(err), d1, fs)
      case Ok(fs') => Effect(Ok(()), d1, fs')
  }

  /** When `Stat` finds a directory, whether at `p` or at `p + ".json"`, no
      proper prefix of `p` is a regular file. */
  lemma StatDirHasNoFileAncestor(fs: FileSystem, p: Path)
    requires Stat(fs, p) == Ok(Dir)
    ensures !FileAncestor(fs, p)
  {
    if p != [] {
      var found := if Exists(fs, p) then p else AddSuffix(p, Extension);
      AncestorsAreDirs(fs, found);
      assert forall k :: 0 < k < |p| ==> p[..k] == found[..k];
    }
  }

  /** Removing a missing path recursively changes nothing. */
  lemma RemoveAllMissing(fs: FileSystem, p: Path)
    requires p != [] && p !in fs && !FileAncestor(fs, p)
    ensures RemoveAll(fs, p) == Ok(fs)
  {
    forall q | q in fs
      ensures !Within(q, p)
    {
      if Within(q, p) {
        NothingBeneathMissing(fs, p, q);
      }
    }
    assert RemoveAll(fs, p).value == fs;
  }
}

=== FILE: filesystem.dfy ===
/** The operating-system filesystem the driver drives, as an immutable map
    from path to node, and the os-package calls it makes as pure functions.

    The map holds every existing path except the working directory itself,
    which always exists. Every key's parent is a directory, so the map is a
    tree. Permissions, symbolic links, timestamps and concurrent mutation are
    not modelled.
 */
module Os {
  import opened Paths
  import opened Results
  import Names

  newtype byte = x: int | 0 <= x < 256

  type Bytes = seq<byte>

  datatype Node = Dir | File(bytes: Bytes)

  /** `p` is a path whose parent is the working directory or a directory of `m`. */
  predicate Hangs(m: map<Path, Node>, p: Path) {
    p != [] && (|p| == 1 || (Parent(p) in m && m[Parent(p)] == Dir))
  }

  predicate Tree(m: map<Path, Node>) {
    forall p :: p in m ==> Hangs(m, p)
  }

  type FileSystem = m: map<Path, Node> | Tree(m) witness map[]

  /** `p` exists: it is the working directory or a key of `fs`. */
  predicate Exists(fs: FileSystem, p: Path) {
    p == [] || p in fs
  }

  predicate IsDirAt(fs: FileSystem, p: Path) {
    p == [] || (p in fs && fs[p] == Dir)
  }

  predicate IsFileAt(fs: FileSystem, p: Path) {
    p in fs && fs[p].File?
  }

  /** Some proper prefix of `p` is a regular file (a lookup gives ENOTDIR). */
  predicate FileAncestor(fs: FileSystem, p: Path) {
    exists k :: 0 < k < |p| && IsFileAt(fs, p[..k])
  }

  /** No non-empty prefix of `p`, `p` included, is a regular file. */
  predicate NoFileOnPath(fs: FileSystem, p: Path) {
    forall k :: 0 < k <= |p| ==> !IsFileAt(fs, p[..k])
  }

  /** `q` is present in both or absent from both, with the same node. */
  predicate Same(fs: FileSystem, fs': FileSystem, q: Path) {
    (q in fs <==> q in fs') && (q in fs ==> fs[q] == fs'[q])
  }

  /** The names directly inside `p`. */
  function Children(fs: FileSystem, p: Path): set<string> {
    set q | q in fs.Keys && |q| == |p| + 1 && q[..|p|] == p :: q[|p|]
  }

  /** `n` is listed in `p` exactly when `p/n` exists. */
  lemma ChildIff(fs: FileSystem, p: Path, n: string)
    ensures n in Children(fs, p) <==> p + [n] in fs
  {
    var c := p + [n];
    assert c[..|p|] == p && c[|p|] == n;
    if n in Children(fs, p) {
      var q :| q in fs.Keys && |q| == |p| + 1 && q[..|p|] == p && q[|p|] == n;
      assert q == q[..|p|] + [q[|p|]];
    }
  }

  lemma {:induction false} AncestorsAreDirs(fs: FileSystem, p: Path)
    requires p in fs
    ensures forall k :: 0 < k < |p| ==> IsDirAt(fs, p[..k])
    decreases |p|
  {
    if |p| > 1 {
      assert Hangs(fs, p);
      AncestorsAreDirs(fs, Parent(p));
      forall k | 0 < k < |p|
        ensures IsDirAt(fs, p[..k])
      {
        if k < |p| - 1 {
          assert p[..k] == Parent(p)[..k];
        }
      }
    }
  }

  /** Whatever lies at or beneath a missing path is missing too. */
  lemma NothingBeneathMissing(fs: FileSystem, p: Path, q: Path)
    requires p != [] && p !in fs && Within(q, p)
    ensures q !in fs
  {
    if q in fs && q != p {
      AncestorsAreDirs(fs, q);
    }
  }

  /** A path whose ancestor is a regular file does not exist, and neither does
      any path with the same ancestors. */
  lemma FileAncestorExcludes(fs: FileSystem, p: Path, q: Path)
    requires FileAncestor(fs, p)
    requires |q| == |p| && q[..|p| - 1] == p[..|p| - 1]
    ensures q !in fs
  {
    var k :| 0 < k < |p| && IsFileAt(fs, p[..k]);
    assert q[..k] == p[..k];
    if q in fs {
      AncestorsAreDirs(fs, q);
    }
  }

  /** Paths that differ only in their last segment have the same ancestors. */
  lemma SameAncestors(fs: FileSystem, p: Path, q: Path)
    requires |p| == |q| > 0 && p[..|p| - 1] == q[..|q| - 1]
    ensures FileAncestor(fs, p) <==> FileAncestor(fs, q)
  {
    assert forall k :: 0 < k < |p| ==> p[..k] == p[..|p| - 1][..k] && q[..k] == q[..|q| - 1][..k];
  }

  /** `os.Lstat`/`os.Stat`: the node at `p`, ENOTDIR when a prefix is a regular
      file, ENOENT otherwise. */
  function Lookup(fs: FileSystem, p: Path): (r: Result<Node>)
    ensures r.Ok? <==> Exists(fs, p)
    ensures r.Ok? && p != [] ==> r.value == fs[p]
    ensures p == [] ==> r == Ok(Dir)
    ensures !Exists(fs, p) && FileAncestor(fs, p) ==> r == Err(NotDir(p))
    ensures !Exists(fs, p) && !FileAncestor(fs, p) ==> r == Err(NotExist(p))
  {
    if p == [] then Ok(Dir)
    else if p in fs then Ok(fs[p])
    else if FileAncestor(fs, p) then Err(NotDir(p))
    else Err(NotExist(p))
  }

  /** Whether a new entry may be created at `p`: its parent must be a directory. */
  function ParentCheck(fs: FileSystem, p: Path): (r: Result<()>)
    requires p != []
    ensures r.Ok? <==> IsDirAt(fs, Parent(p))
  {
    match Lookup(fs, Parent(p))
    case Ok(Dir) => Ok(())
    case Ok(File(_)) => Err(NotDir(p))
    case Err(NotDir(_)) => Err(NotDir(p))
    case Err(_) => Err(NotExist(p))
  }

  /** `os.Mkdir`: creates exactly `p`, whose parent must already be a directory. */
  function Mkdir(fs: FileSystem, p: Path): (r: Result<FileSystem>)
    ensures r.Ok? <==> !Exists(fs, p) && IsDirAt(fs, Parent(p))
    ensures r.Ok? ==> r.value == fs[p := Dir]
  {
    if Exists(fs, p) then Err(Exist(p))
    else
      match ParentCheck(fs, p)
      case Err(e) => Err(e)
      case Ok(_) =>
        var fs' := fs[p := Dir];
        assert Tree(fs') by {
          forall q | q in fs'
            ensures Hangs(fs', q)
          {
            if q != p {
              assert Hangs(fs, q);
            }
          }
        }
        Ok(fs')
  }

  /** `os.MkdirAll`: succeeds unless a prefix of `p` is a regular file; then
      every prefix of `p` is a directory, those that were missing being new,
      and nothing else changes. */
  function MkdirAll(fs: FileSystem, p: Path): (r: Result<FileSystem>)
    ensures r.Ok? <==> NoFileOnPath(fs, p)
    ensures r.Ok? ==> forall k :: 0 < k <= |p| ==> IsDirAt(r.value, p[..k])
    ensures r.Ok? ==> forall q :: !OnPath(q, p) ==> Same(fs, r.value, q)
    ensures r.Ok? ==> forall q :: q in fs ==> q in r.value && r.value[q] == fs[q]
    decreases |p|
  {
    match Lookup(fs, p)
    case Ok(Dir) =>
      if p == [] then Ok(fs)
      else
        AncestorsAreDirs(fs, p);
        assert p[..|p|] == p;
        Ok(fs)
    case Ok(File(_)) =>
      assert p[..|p|] == p;
      Err(NotDir(p))
    case Err(_) =>
      var parent := MkdirAll(fs, Parent(p));
      if parent.Err? then
        assert !NoFileOnPath(fs, p) by {
          if NoFileOnPath(fs, p) {
            assert forall k :: 0 < k <= |p| - 1 ==> Parent(p)[..k] == p[..k];
          }
        }
        Err(parent.error)
      else
        MkdirAllStep(fs, parent.value, p);
        Ok(Mkdir(parent.value, p).value)
  }

  /** The last step of `MkdirAll(p)`: once the parent's prefixes are
      directories, making `p` itself completes them. */
  lemma MkdirAllStep(fs: FileSystem, fs1: FileSystem, p: Path)
    requires p != [] && p !in fs
    requires NoFileOnPath(fs, Parent(p))
    requires forall k :: 0 < k <= |p| - 1 ==> IsDirAt(fs1, Parent(p)[..k])
    requires forall q :: !OnPath(q, Parent(p)) ==> Same(fs, fs1, q)
    requires forall q :: q in fs ==> q in fs1 && fs1[q] == fs[q]
    ensures Mkdir(fs1, p).Ok?
    ensures NoFileOnPath(fs, p)
    ensures forall k :: 0 < k <= |p| ==> IsDirAt(Mkdir(fs1, p).value, p[..k])
    ensures forall q :: !OnPath(q, p) ==> Same(fs, Mkdir(fs1, p).value, q)
    ensures forall q :: q in fs ==> q in Mkdir(fs1, p).value && Mkdir(fs1, p).value[q] == fs[q]
  {
    assert Same(fs, fs1, p);
    assert IsDirAt(fs1, Parent(p)) by {
      if |p| > 1 {
        assert Parent(p)[..|p| - 1] == Parent(p);
      }
    }
    var fs2 := Mkdir(fs1, p).value;
    forall k | 0 < k <= |p|
      ensures !IsFileAt(fs, p[..k]) && IsDirAt(fs2, p[..k])
    {
      if k < |p| {
        assert p[..k] == Parent(p)[..k];
      } else {
        assert p[..k] == p;
      }
    }
    forall q | !OnPath(q, p)
      ensures !OnPath(q, Parent(p))
    {
      if 0 < |q| < |p| {
        assert p[..|q|] == Parent(p)[..|q|];
      }
    }
  }

  /** `ioutil.WriteFile` (create or truncate): fails on a directory or when the
      parent is not a directory; otherwise `p` holds exactly `b`. */
  function WriteFile(fs: FileSystem, p: Path, b: Bytes): (r: Result<FileSystem>)
    ensures r.Ok? <==> p != [] && !IsDirAt(fs, p) && IsDirAt(fs, Parent(p))
    ensures r.Ok? ==> r.value == fs[p := File(b)]
  {
    match Lookup(fs, p)
    case Ok(Dir) => Err(IsDir(p))
    case Ok(File(_)) =>
      assert Hangs(fs, p);
      Ok(fs[p := File(b)])
    case Err(_) =>
      match ParentCheck(fs, p)
      case Err(e) => Err(e)
      case Ok(_) => Ok(fs[p := File(b)])
  }

  /** `os.Rename` of a regular file: replaces a file at `dst` or creates it;
      fails with EEXIST when `dst` is a directory (Go checks the target with
      `Lstat` first) and otherwise when its parent is not a directory. */
  function Rename(fs: FileSystem, src: Path, dst: Path): (r: Result<FileSystem>)
    requires IsFileAt(fs, src) && src != dst
    ensures r.Ok? <==> dst != [] && !IsDirAt(fs, dst) && IsDirAt(fs, Parent(dst))
    ensures IsDirAt(fs, dst) ==> r == Err(Exist(dst))
    ensures r.Ok? ==> r.value == (fs - {src})[dst := fs[src]]
  {
    if IsDirAt(fs, dst) then Err(Exist(dst))
    else
      match ParentCheck(fs, dst)
      case Err(e) => Err(e)
      case Ok(_) =>
        var fs' := (fs - {src})[dst := fs[src]];
        assert Tree(fs') by {
          forall q | q in fs'
            ensures Hangs(fs', q)
          {
            if q != dst {
              assert Hangs(fs, q);
            }
          }
        }
        Ok(fs')
  }

  /** `os.Remove`: removes a regular file or an empty directory. */
  function Remove(fs: FileSystem, p: Path): (r: Result<FileSystem>)
    ensures r.Ok? <==> p in fs && (fs[p].File? || Children(fs, p) == {})
    ensures r.Ok? ==> r.value == fs - {p}
  {
    if p == [] then Err(Invalid(p))
    else
      match Lookup(fs, p)
      case Err(e) => Err(e)
      case Ok(n) =>
        if n.Dir? && Children(fs, p) != {} then Err(NotEmpty(p))
        else
          var fs' := fs - {p};
          assert Tree(fs') by {
            forall q | q in fs'
              ensures Hangs(fs', q)
            {
              assert Hangs(fs, q);
              if |q| > 1 && Parent(q) == p {
                assert q[|p|] in Children(fs, p);
              }
            }
          }
          Ok(fs')
  }

  /** `os.RemoveAll`: removes `p` and everything beneath it; a missing `p` is
      not an error, "." is refused (EINVAL), and a regular file among the
      proper prefixes of `p` fails the removal of `p` (ENOTDIR). */
  function RemoveAll(fs: FileSystem, p: Path): (r: Result<FileSystem>)
    ensures r.Ok? <==> p != [] && !FileAncestor(fs, p)
    ensures p == [] ==> r == Err(Invalid(p))
    ensures p != [] && FileAncestor(fs, p) ==> r == Err(NotDir(p))
    ensures r.Ok? ==> forall q :: q in r.value <==> q in fs && !Within(q, p)
    ensures r.Ok? ==> forall q :: q in r.value ==> r.value[q] == fs[q]
  {
    if p == [] then Err(Invalid(p))
    else if FileAncestor(fs, p) then Err(NotDir(p))
    else
      var fs' := map q | q in fs && !Within(q, p) :: fs[q];
      assert Tree(fs') by {
        forall q | q in fs'
          ensures Hangs(fs', q)
        {
          assert Hangs(fs, q);
          if |q| > 1 && Within(Parent(q), p) {
            WithinParent(q, p);
          }
        }
      }
      Ok(fs')
  }

  /** `ioutil.ReadFile`: the bytes of a regular file; EISDIR on a directory. */
  function ReadFile(fs: FileSystem, p: Path): (r: Result<Bytes>)
    ensures r.Ok? <==> IsFileAt(fs, p)
    ensures r.Ok? ==> r.value == fs[p].bytes
    ensures !Exists(fs, p) && !FileAncestor(fs, p) ==> r == Err(NotExist(p))
  {
    match Lookup(fs, p)
    case Err(e) => Err(e)
    case Ok(Dir) => Err(IsDir(p))
    case Ok(File(b)) => Ok(b)
  }

  /** `ioutil.ReadDir`: the names inside directory `p`, sorted. */
  function ReadDir(fs: FileSystem, p: Path): (r: Result<seq<string>>)
    ensures r.Ok? <==> IsDirAt(fs, p)
    ensures r.Ok? ==> r.value == Names.Sorted(Children(fs, p))
    ensures !Exists(fs, p) && !FileAncestor(fs, p) ==> r == Err(NotExist(p))
  {
    match Lookup(fs, p)
    case Err(e) => Err(e)
    case Ok(File(_)) => Err(NotDir(p))
    case Ok(Dir) => Ok(Names.Sorted(Children(fs, p)))
  }
}

=== FILE: names.dfy ===
/** Ordering of file names, as a directory listing sorts them.

    Go compares strings byte by byte; UTF-8 preserves code-point order, so the
    lexicographic order on characters below is the same order.
 */
module Names {

  /** Strict lexicographic order: `a < b` on Go strings. */
  predicate Less(a: string, b: string)
    decreases |a|
  {
    |b| > 0 && (|a| == 0 || a[0] < b[0] || (a[0] == b[0] && Less(a[1..], b[1..])))
  }

  lemma {:induction false} LessIrreflexive(a: string)
    ensures !Less(a, a)
    decreases |a|
  {
    if |a| > 0 {
      LessIrreflexive(a[1..]);
    }
  }

  lemma {:induction false} LessTransitive(a: string, b: string, c: string)
    requires Less(a, b) && Less(b, c)
    ensures Less(a, c)
    decreases |a|
  {
    if |a| > 0 && a[0] == b[0] && b[0] == c[0] {
      LessTransitive(a[1..], b[1..], c[1..]);
    }
  }

  lemma {:induction false} LessTotal(a: string, b: string)
    requires a != b
    ensures Less(a, b) || Less(b, a)
    decreases |a|
  {
    if |a| > 0 && |b| > 0 && a[0] == b[0] {
      assert a == [a[0]] + a[1..] && b == [b[0]] + b[1..];
      LessTotal(a[1..], b[1..]);
    }
  }

  lemma {:induction false} LessAsymmetric(a: string, b: string)
    requires Less(a, b)
    ensures !Less(b, a)
  {
    if Less(b, a) {
      LessTransitive(a, b, a);
      LessIrreflexive(a);
    }
  }

  /** `m` is the least name of `s`. */
  predicate Least(m: string, s: set<string>) {
    m in s && forall x :: x in s && x != m ==> Less(m, x)
  }

  lemma {:induction false} LeastExists(s: set<string>)
    requires s != {}
    ensures exists m :: Least(m, s)
    decreases |s|
  {
    var x :| x in s;
    if s != {x} {
      var rest := s - {x};
      LeastExists(rest);
      var m :| Least(m, rest);
      if Less(x, m) {
        forall y | y in s && y != x
          ensures Less(x, y)
        {
          if y != m {
            LessTransitive(x, m, y);
          }
        }
        assert Least(x, s);
      } else {
        LessTotal(x, m);
        assert Least(m, s);
      }
    } else {
      assert Least(x, s);
    }
  }

  lemma LeastUnique(s: set<string>)
    ensures forall m, n :: Least(m, s) && Least(n, s) ==> m == n
  {
    forall m, n | Least(m, s) && Least(n, s)
      ensures m == n
    {
      if m != n {
        LessAsymmetric(m, n);
      }
    }
  }

  /** The names of `s` in increasing order, as `ioutil.ReadDir` lists them. */
  function Sorted(s: set<string>): (r: seq<string>)
    ensures |r| == |s|
    ensures forall x :: x in s <==> x in r
    ensures forall i, j :: 0 <= i < j < |r| ==> Less(r[i], r[j])
    decreases |s|
  {
    if s == {} then []
    else
      LeastExists(s);
      LeastUnique(s);
      var m :| Least(m, s);
      [m] + Sorted(s - {m})
  }

  /** A name lists before every longer name it begins. */
  lemma {:induction false} LessPrefix(a: string, suffix: string)
    requires suffix != ""
    ensures Less(a, a + suffix)
    decreases |a|
  {
    if |a| > 0 {
      assert (a + suffix)[1..] == a[1..] + suffix;
      LessPrefix(a[1..], suffix);
    }
  }

  /** Two names list in increasing order. */
  lemma SortedPair(a: string, b: string)
    requires Less(a, b)
    ensures Sorted({a, b}) == [a, b]
  {
    LessIrreflexive(a);
    var r := Sorted({a, b});
    assert |{a, b}| == 2;
    assert r[0] in {a, b} && r[1] in {a, b};
    if r[0] == b {
      LessAsymmetric(a, b);
    }
  }

  /** A single name lists as itself. */
  lemma SortedSingleton(x: string)
    ensures Sorted({x}) == [x]
  {
  }
}

=== FILE: paths.dfy ===
/** Paths of the abstract filesystem the driver works on.

    A path is the sequence of its segments below the process's working
    directory; the empty path is that directory itself ("."), which always
    exists. Names are opaque single segments: separators, "." and ".." inside
    a name are not interpreted.
 */
module Paths {

  type Path = seq<string>

  /** The names `filepath.Join` keeps: it drops every empty element. */
  function Segments(names: seq<string>): (s: seq<string>)
    ensures |s| <= |names|
    ensures forall i :: 0 <= i < |s| ==> s[i] != ""
    ensures forall n :: n in names && n != "" ==> n in s
  {
    if names == [] then []
    else (if names[0] == "" then [] else [names[0]]) + Segments(names[1..])
  }

  /** `filepath.Join(base, names...)` for single-segment names. */
  function Join(base: Path, names: seq<string>): (p: Path)
    ensures |base| <= |p| && p[..|base|] == base
  {
    base + Segments(names)
  }

  /** String concatenation on a path (`path + suffix`): the suffix extends the
      last segment. On "." it yields the single segment "." + suffix. */
  function AddSuffix(p: Path, suffix: string): (q: Path)
    ensures |q| == if p == [] then 1 else |p|
    ensures p != [] ==> q[..|p| - 1] == p[..|p| - 1] && q[|p| - 1] == p[|p| - 1] + suffix
  {
    if p == [] then ["." + suffix] else p[..|p| - 1] + [p[|p| - 1] + suffix]
  }

  function Parent(p: Path): Path
    requires p != []
  {
    p[..|p| - 1]
  }

  /** `q` is `p` itself or lies beneath it. */
  predicate Within(q: Path, p: Path) {
    |p| <= |q| && q[..|p|] == p
  }

  /** `q` is one of the non-empty prefixes of `p`: a directory `MkdirAll(p)` makes. */
  predicate OnPath(q: Path, p: Path) {
    0 < |q| <= |p| && p[..|q|] == q
  }

  lemma WithinParent(q: Path, p: Path)
    requires q != [] && |p| < |q| && Within(Parent(q), p)
    ensures Within(q, p)
  {
    assert q[..|p|] == Parent(q)[..|p|];
  }
}

=== FILE: properties.dfy ===
/** Properties that relate several driver operations. */
module Properties {
  import opened Paths
  import opened Results
  import opened Os
  import opened Registry
  import opened Storage
  import Names

  /** A record name with ".json" appended determines the name. */
  lemma ExtensionCancels(a: string, b: string)
    requires a + Extension == b + Extension
    ensures a == b
  {
    assert |a| == |b|;
    assert a == (a + Extension)[..|a|];
  }

  /** A record file is never a temporary file: the names end differently. */
  lemma RecordIsNotTemp(a: string, b: string)
    ensures a + Extension != b + Extension + TempSuffix
  {
    var s := a + Extension;
    var t := b + Extension + TempSuffix;
    assert s[|s| - 1] == 'n';
    assert t[|t| - 1] == 'p';
  }

  /** Byte-level round trip: after a successful write, reading the record
      yields exactly the encoded value followed by one newline. */
  lemma WriteThenReadBody<T>(d: Driver, fs: FileSystem, collection: string, resource: string, v: T,
                             marshal: T -> Option<Bytes>)
    requires Write(d, fs, collection, resource, v, marshal).result.Ok?
    ensures var e := Write(d, fs, collection, resource, v, marshal);
      ReadBody(e.driver, e.fs, collection, resource) == Ok(marshal(v).value + [Newline])
  {
    var e := Write(d, fs, collection, resource, v, marshal);
    assert RecordFile(e.driver, collection, resource) == RecordFile(d, collection, resource);
  }

  /** Value-level round trip: when decoding inverts encoding on `v`, reading
      back what was written yields `v`. */
  lemma WriteThenRead<T>(d: Driver, fs: FileSystem, collection: string, resource: string, v: T,
                         marshal: T -> Option<Bytes>, unmarshal: Bytes -> Option<T>)
    requires Write(d, fs, collection, resource, v, marshal).result.Ok?
    requires unmarshal(marshal(v).value + [Newline]) == Some(v)
    ensures var e := Write(d, fs, collection, resource, v, marshal);
      Read(e.driver, e.fs, collection, resource, unmarshal) == Ok(v)
  {
    WriteThenReadBody(d, fs, collection, resource, v, marshal);
    var e := Write(d, fs, collection, resource, v, marshal);
    assert RecordFile(e.driver, collection, resource) == RecordFile(d, collection, resource);
  }

  /** A write, successful or not, does not change what any other record reads as. */
  lemma WriteLeavesOtherRecords<T>(d: Driver, fs: FileSystem, collection: string, resource: string, v: T,
                                   marshal: T -> Option<Bytes>, other: string, name: string)
    requires other != "" && name != "" && (other, name) != (collection, resource)
    ensures var e := Write(d, fs, collection, resource, v, marshal);
      var before := ReadBody(d, fs, other, name);
      var after := ReadBody(e.driver, e.fs, other, name);
      (after.Ok? <==> before.Ok?) && (after.Ok? ==> after.value == before.value)
  {
    var e := Write(d, fs, collection, resource, v, marshal);
    var q := RecordFile(d, other, name);
    assert RecordFile(e.driver, other, name) == q;
    if collection != "" && resource != "" {
      if other == collection && name + Extension == resource + Extension {
        ExtensionCancels(name, resource);
      }
      RecordIsNotTemp(name, resource);
      assert q != RecordFile(d, collection, resource) && q != TempFile(d, collection, resource);
      assert !OnPath(q, CollectionDir(d, collection));
      assert Same(fs, e.fs, q);
    }
  }

  /** Writing the same value again changes nothing: the second write succeeds
      and leaves the same driver and filesystem as the first. */
  lemma WriteTwiceIsWriteOnce<T>(d: Driver, fs: FileSystem, collection: string, resource: string, v: T,
                                 marshal: T -> Option<Bytes>)
    requires Write(d, fs, collection, resource, v, marshal).result.Ok?
    ensures var e := Write(d, fs, collection, resource, v, marshal);
      Write(e.driver, e.fs, collection, resource, v, marshal) == e
  {
    var e := Write(d, fs, collection, resource, v, marshal);
    var dir := CollectionDir(d, collection);
    var b := marshal(v).value + [Newline];
    assert CollectionDir(e.driver, collection) == dir;
    assert NoFileOnPath(e.fs, dir) by {
      forall k | 0 < k <= |dir|
        ensures !IsFileAt(e.fs, dir[..k])
      {
        assert IsDirAt(e.fs, dir[..k]);
      }
    }
    var e2 := Write(e.driver, e.fs, collection, resource, v, marshal);
    assert e2.result.Ok?;
    assert e2.driver == e.driver;
    StoredTwice(fs, e.fs, e2.fs, dir, resource, b);
  }

  /** Storing the same bytes twice leaves the state the first store made. */
  lemma StoredTwice(fs: FileSystem, fs1: FileSystem, fs2: FileSystem, dir: Path, resource: string, b: Bytes)
    requires Stored(fs, fs1, dir, resource, b) && Stored(fs1, fs2, dir, resource, b)
    ensures fs2 == fs1
  {
    forall q
      ensures (q in fs1 <==> q in fs2) && (q in fs1 ==> fs1[q] == fs2[q])
    {
      if OnPath(q, dir) {
        assert IsDirAt(fs1, dir[..|q|]) && IsDirAt(fs2, dir[..|q|]);
      }
      assert Same(fs1, fs2, q);
    }
    assert fs1.Keys == fs2.Keys;
  }

  /** The first write into a collection that did not exist makes it list
      exactly that one record. */
  lemma FreshWriteThenReadAll<T>(d: Driver, fs: FileSystem, collection: string, resource: string, v: T,
                                 marshal: T -> Option<Bytes>)
    requires CollectionDir(d, collection) !in fs
    requires Write(d, fs, collection, resource, v, marshal).result.Ok?
    ensures var e := Write(d, fs, collection, resource, v, marshal);
      ReadAll(e.driver, e.fs, collection) == Ok([marshal(v).value + [Newline]])
  {
    var e := Write(d, fs, collection, resource, v, marshal);
    var dir := CollectionDir(d, collection);
    var final := RecordFile(d, collection, resource);
    assert CollectionDir(e.driver, collection) == dir;
    OnlyChild(fs, e.fs, dir, resource + Extension, TempFile(d, collection, resource));
    Names.SortedSingleton(resource + Extension);
    ReadAllOfOne(e.driver, e.fs, collection, resource + Extension);
  }

  /** A collection directory holding one regular file reads as that file. */
  lemma ReadAllOfOne(d: Driver, fs: FileSystem, collection: string, name: string)
    requires collection != "" && IsDirAt(fs, CollectionDir(d, collection))
    requires Children(fs, CollectionDir(d, collection)) == {name}
    requires IsFileAt(fs, CollectionDir(d, collection) + [name])
    ensures ReadAll(d, fs, collection) == Ok([fs[CollectionDir(d, collection) + [name]].bytes])
  {
    var dir := CollectionDir(d, collection);
    Names.SortedSingleton(name);
    assert forall n :: n in Children(fs, dir) ==> IsFileAt(fs, dir + [n]);
    var r := ReadAll(d, fs, collection);
    assert r.Ok?;
    assert |r.value| == 1;
    assert r.value[0] == fs[dir + [name]].bytes;
    assert r.value == [fs[dir + [name]].bytes];
  }

  /** A directory that did not exist before holds, after a change that
      touched only its ancestors, `dir/name` and `temp`, just `name`. */
  lemma OnlyChild(fs: FileSystem, fs': FileSystem, dir: Path, name: string, temp: Path)
    requires dir != [] && dir !in fs
    requires dir + [name] in fs' && temp !in fs'
    requires forall q :: (q != dir + [name] && q != temp && !OnPath(q, dir)) ==> Same(fs, fs', q)
    ensures Children(fs', dir) == {name}
  {
    var final := dir + [name];
    forall q | q in fs' && |q| == |dir| + 1 && q[..|dir|] == dir
      ensures q == final
    {
      if q != final {
        assert !OnPath(q, dir);
        NothingBeneathMissing(fs, dir, q);
      }
    }
    assert final[..|dir|] == dir && final[|dir|] == name;
  }

  /** Deleting with an empty resource name targets the collection directory:
      the collection and everything in it disappear, and reading it fails. */
  lemma DeleteCollection(d: Driver, fs: FileSystem, collection: string, resource: string)
    requires collection != "" && IsDirAt(fs, CollectionDir(d, collection))
    ensures var e := Delete(d, fs, collection, "");
      && e.result.Ok?
      && (forall q :: q in e.fs <==> q in fs && !Within(q, CollectionDir(d, collection)))
      && ReadAll(e.driver, e.fs, collection).Err?
      && ReadAll(e.driver, e.fs, collection).error.NotExist?
      && ReadBody(e.driver, e.fs, collection, resource).Err?
      && (resource != "" ==> ReadBody(e.driver, e.fs, collection, resource) == Err(NotExist(RecordFile(d, collection, resource))))
  {
    var e := Delete(d, fs, collection, "");
    var dir := CollectionDir(d, collection);
    assert RecordPath(d, collection, "") == dir;
    assert CollectionDir(e.driver, collection) == dir;
    var file := RecordFile(d, collection, resource);
    assert RecordFile(e.driver, collection, resource) == file;
    assert file == dir + [resource + Extension];
    RemovedLeavesNothing(fs, e.fs, dir, resource + Extension);
  }

  /** Once the tree under a directory is removed, neither the directory nor
      any entry in it can be found, and no file blocks the way to them. */
  lemma RemovedLeavesNothing(fs: FileSystem, fs': FileSystem, dir: Path, name: string)
    requires dir != [] && IsDirAt(fs, dir)
    requires forall q :: q in fs' <==> q in fs && !Within(q, dir)
    requires forall q :: q in fs' ==> fs'[q] == fs[q]
    ensures !Exists(fs', dir) && !FileAncestor(fs', dir)
    ensures !Exists(fs', dir + [name]) && !FileAncestor(fs', dir + [name])
  {
    var file := dir + [name];
    assert Within(dir, dir);
    assert file[..|dir|] == dir;
    AncestorsAreDirs(fs, dir);
    forall k | 0 < k < |file|
      ensures !IsFileAt(fs', file[..k])
    {
      if k < |dir| {
        assert file[..k] == dir[..k];
        assert IsDirAt(fs, dir[..k]);
      }
    }
    forall k | 0 < k < |dir|
      ensures !IsFileAt(fs', dir[..k])
    {
      assert file[..k] == dir[..k];
    }
  }

  /** A record written and then deleted is gone, and nothing else changes,
      provided no entry is named after the bare resource (otherwise `Stat`
      finds that entry and the delete acts on it instead). */
  lemma WriteThenDelete<T>(d: Driver, fs: FileSystem, collection: string, resource: string, v: T,
                           marshal: T -> Option<Bytes>)
    requires RecordPath(d, collection, resource) !in fs
    requires Write(d, fs, collection, resource, v, marshal).result.Ok?
    ensures var e := Write(d, fs, collection, resource, v, marshal);
      var e2 := Delete(e.driver, e.fs, collection, resource);
      && e2.result.Ok?
      && e2.fs == e.fs - {RecordFile(d, collection, resource)}
      && ReadBody(e2.driver, e2.fs, collection, resource).Err?
  {
    var e := Write(d, fs, collection, resource, v, marshal);
    var bare := RecordPath(d, collection, resource);
    var final := RecordFile(d, collection, resource);
    assert RecordPath(e.driver, collection, resource) == bare;
    assert |bare[|bare| - 1]| < |final[|bare| - 1]|;
    assert bare != final && bare != TempFile(d, collection, resource);
    assert !OnPath(bare, CollectionDir(d, collection));
    assert bare !in e.fs;
    assert AddSuffix(bare, Extension) == final;
    var e2 := Delete(e.driver, e.fs, collection, resource);
    assert RecordFile(e2.driver, collection, resource) == final;
  }

  /** A temporary file left in a collection directory is read back by
      `ReadAll` as a record of its own, listed right after the record it
      would have replaced. */
  lemma StrayTempIsRead(d: Driver, fs: FileSystem, collection: string, resource: string)
    requires collection != "" && IsDirAt(fs, CollectionDir(d, collection))
    requires Children(fs, CollectionDir(d, collection)) == {resource + Extension, resource + Extension + TempSuffix}
    requires IsFileAt(fs, RecordFile(d, collection, resource)) && IsFileAt(fs, TempFile(d, collection, resource))
    ensures ReadAll(d, fs, collection) ==
      Ok([fs[RecordFile(d, collection, resource)].bytes, fs[TempFile(d, collection, resource)].bytes])
  {
    var dir := CollectionDir(d, collection);
    var a := resource + Extension;
    var b := resource + Extension + TempSuffix;
    Names.LessPrefix(a, TempSuffix);
    assert dir + [a] == RecordFile(d, collection, resource) && dir + [b] == TempFile(d, collection, resource);
    ReadAllOfTwo(d, fs, collection, a, b);
  }

  /** A collection directory holding two regular files reads as the two
      files in name order. */
  lemma ReadAllOfTwo(d: Driver, fs: FileSystem, collection: string, a: string, b: string)
    requires collection != "" && IsDirAt(fs, CollectionDir(d, collection))
    requires Names.Less(a, b) && Children(fs, CollectionDir(d, collection)) == {a, b}
    requires IsFileAt(fs, CollectionDir(d, collection) + [a]) && IsFileAt(fs, CollectionDir(d, collection) + [b])
    ensures ReadAll(d, fs, collection) ==
      Ok([fs[CollectionDir(d, collection) + [a]].bytes, fs[CollectionDir(d, collection) + [b]].bytes])
  {
    var dir := CollectionDir(d, collection);
    Names.SortedPair(a, b);
    assert forall n :: n in Children(fs, dir) ==> IsFileAt(fs, dir + [n]);
    var r := ReadAll(d, fs, collection);
    assert r.Ok? && |r.value| == 2;
    assert r.value[0] == fs[dir + [a]].bytes && r.value[1] == fs[dir + [b]].bytes;
    assert r.value == [fs[dir + [a]].bytes, fs[dir + [b]].bytes];
  }

  /** The record file names of `resources`. */
  function Finals(resources: seq<string>): set<string> {
    set r | r in resources :: r + Extension
  }

  /** The temporary file names of `resources`. */
  function Temps(resources: seq<string>): set<string> {
    set r | r in resources :: r + Extension + TempSuffix
  }

  predicate Distinct(resources: seq<string>) {
    forall i, j :: 0 <= i < j < |resources| ==> resources[i] != resources[j]
  }

  /** A client storing `values[i]` as `resources[i]` in one collection, one
      write after the other, stopping at the first failure. */
  function WriteEach<T>(d: Driver, fs: FileSystem, collection: string, resources: seq<string>, values: seq<T>,
                        marshal: T -> Option<Bytes>): (e: Effect<()>)
    requires |resources| == |values|
    ensures e.driver.dir == d.dir
    decreases |resources|
  {
    if resources == [] then Effect(Ok(()), d, fs)
    else
      var e1 := Write(d, fs, collection, resources[0], values[0], marshal);
      if e1.result.Err? then e1
      else WriteEach(e1.driver, e1.fs, collection, resources[1..], values[1..], marshal)
  }

  /** Splitting off the first resource splits the name sets accordingly. */
  lemma FinalsTempsCons(resources: seq<string>)
    requires resources != []
    ensures Finals(resources) == {resources[0] + Extension} + Finals(resources[1..])
    ensures Temps(resources) == {resources[0] + Extension + TempSuffix} + Temps(resources[1..])
    ensures resources[0] + Extension !in Temps(resources[1..])
  {
    assert forall r :: r in resources <==> r == resources[0] || r in resources[1..] by {
      assert resources == [resources[0]] + resources[1..];
    }
    forall r | r in resources[1..]
      ensures resources[0] + Extension != r + Extension + TempSuffix
    {
      RecordIsNotTemp(resources[0], r);
    }
  }

  /** One successful write, seen from its collection's listing: the record
      file appears holding the encoding, the temporary file disappears, and
      every other entry keeps its node. */
  lemma WriteListing<T>(d: Driver, fs: FileSystem, collection: string, resource: string, v: T,
                        marshal: T -> Option<Bytes>)
    requires Write(d, fs, collection, resource, v, marshal).result.Ok?
    ensures var e := Write(d, fs, collection, resource, v, marshal); var dir := CollectionDir(d, collection);
      && marshal(v).Some?
      && e.driver.dir == d.dir
      && IsDirAt(e.fs, dir)
      && Children(e.fs, dir) == (Children(fs, dir) - {resource + Extension + TempSuffix}) + {resource + Extension}
      && IsFileAt(e.fs, dir + [resource + Extension])
      && e.fs[dir + [resource + Extension]].bytes == marshal(v).value + [Newline]
      && forall n :: n != resource + Extension && n != resource + Extension + TempSuffix ==> Same(fs, e.fs, dir + [n])
  {
    var e := Write(d, fs, collection, resource, v, marshal);
    var dir := CollectionDir(d, collection);
    StoredListing(fs, e.fs, dir, resource, marshal(v).value + [Newline]);
    assert dir[..|dir|] == dir;
  }

  /** The listing bookkeeping of one more write: the first write's change
      followed by the rest's is the change of the whole run. */
  lemma ListingStep(c0: set<string>, c1: set<string>, c: set<string>, t: string, f: string,
                    temps: set<string>, finals: set<string>)
    requires c1 == (c0 - {t}) + {f} && c == (c1 - temps) + finals && f !in temps
    ensures c == (c0 - ({t} + temps)) + ({f} + finals)
  {
  }

  /** A run of successful writes into one collection changes its listing by
      the record files appearing and the temporary files disappearing; every
      entry not named after one of the resources keeps its node. */
  lemma {:induction false} WriteEachListing<T>(d: Driver, fs: FileSystem, collection: string, resources: seq<string>,
                                               values: seq<T>, marshal: T -> Option<Bytes>)
    requires |resources| == |values| && collection != ""
    requires WriteEach(d, fs, collection, resources, values, marshal).result.Ok?
    ensures var e := WriteEach(d, fs, collection, resources, values, marshal); var dir := CollectionDir(d, collection);
      && Children(e.fs, dir) == (Children(fs, dir) - Temps(resources)) + Finals(resources)
      && (resources != [] ==> IsDirAt(e.fs, dir))
      && forall n :: n !in Finals(resources) && n !in Temps(resources) ==> Same(fs, e.fs, dir + [n])
    decreases |resources|
  {
    if resources != [] {
      var dir := CollectionDir(d, collection);
      var e1 := Write(d, fs, collection, resources[0], values[0], marshal);
      var rest := resources[1..];
      assert e1.result.Ok?;
      WriteListing(d, fs, collection, resources[0], values[0], marshal);
      assert CollectionDir(e1.driver, collection) == dir;
      WriteEachListing(e1.driver, e1.fs, collection, rest, values[1..], marshal);
      FinalsTempsCons(resources);
      var e := WriteEach(e1.driver, e1.fs, collection, rest, values[1..], marshal);
      ListingStep(Children(fs, dir), Children(e1.fs, dir), Children(e.fs, dir),
                  resources[0] + Extension + TempSuffix, resources[0] + Extension, Temps(rest), Finals(rest));
    }
  }

  /** The first of distinct resources has a record file name of its own. */
  lemma DistinctHead(resources: seq<string>)
    requires resources != [] && Distinct(resources)
    ensures Distinct(resources[1..])
    ensures resources[0] + Extension !in Finals(resources[1..])
  {
    var rest := resources[1..];
    forall r | r in rest
      ensures resources[0] + Extension != r + Extension
    {
      var j :| 0 <= j < |rest| && rest[j] == r;
      assert resources[j + 1] == r;
      if resources[0] + Extension == r + Extension {
        ExtensionCancels(resources[0], r);
      }
    }
  }

  /** After a run of successful writes of distinct resources, each record
      file holds the encoding of the value written under its name. */
  lemma {:induction false} WriteEachContents<T>(d: Driver, fs: FileSystem, collection: string, resources: seq<string>,
                                                values: seq<T>, marshal: T -> Option<Bytes>)
    requires |resources| == |values| && collection != "" && Distinct(resources)
    requires WriteEach(d, fs, collection, resources, values, marshal).result.Ok?
    ensures var e := WriteEach(d, fs, collection, resources, values, marshal);
      forall i :: 0 <= i < |resources| ==> Encoded(e.fs, CollectionDir(d, collection), resources[i], values[i], marshal)
    decreases |resources|
  {
    if resources != [] {
      var dir := CollectionDir(d, collection);
      var e1 := Write(d, fs, collection, resources[0], values[0], marshal);
      var rest := resources[1..];
      assert e1.result.Ok?;
      WriteListing(d, fs, collection, resources[0], values[0], marshal);
      assert CollectionDir(e1.driver, collection) == dir;
      var e := WriteEach(e1.driver, e1.fs, collection, rest, values[1..], marshal);
      assert WriteEach(d, fs, collection, resources, values, marshal) == e;
      DistinctHead(resources);
      FinalsTempsCons(resources);
      WriteEachListing(e1.driver, e1.fs, collection, rest, values[1..], marshal);
      WriteEachContents(e1.driver, e1.fs, collection, rest, values[1..], marshal);
      var f := dir + [resources[0] + Extension];
      assert Same(e1.fs, e.fs, f);
      forall i | 0 <= i < |resources|
        ensures Encoded(e.fs, dir, resources[i], values[i], marshal)
      {
        if i > 0 {
          assert resources[i] == rest[i - 1] && values[i] == values[1..][i - 1];
        }
      }
    }
  }

  /** Distinct resources have as many record file names. */
  lemma {:induction false} FinalsCount(resources: seq<string>)
    requires Distinct(resources)
    ensures |Finals(resources)| == |resources|
    decreases |resources|
  {
    if resources != [] {
      FinalsTempsCons(resources);
      DistinctHead(resources);
      FinalsCount(resources[1..]);
    }
  }

  /** The record bodies a run of writes of `values` stores. */
  function Encodings<T>(values: seq<T>, marshal: T -> Option<Bytes>): set<Bytes> {
    set i | 0 <= i < |values| && marshal(values[i]).Some? :: marshal(values[i]).value + [Newline]
  }

  /** `dir` holds the record file of `resource`, and it holds the encoding of `v`. */
  predicate Encoded<T>(fs: FileSystem, dir: Path, resource: string, v: T, marshal: T -> Option<Bytes>) {
    && marshal(v).Some?
    && IsFileAt(fs, dir + [resource + Extension])
    && fs[dir + [resource + Extension]].bytes == marshal(v).value + [Newline]
  }

  /** Writing N distinct records into a collection with no entries makes
      `ReadAll` return exactly N bodies, which are exactly the encodings of
      the values written, in the sorted order of their file names. */
  lemma WritesThenReadAll<T>(d: Driver, fs: FileSystem, collection: string, resources: seq<string>, values: seq<T>,
                             marshal: T -> Option<Bytes>)
    requires |resources| == |values| && resources != [] && Distinct(resources)
    requires collection != "" && Children(fs, CollectionDir(d, collection)) == {}
    requires WriteEach(d, fs, collection, resources, values, marshal).result.Ok?
    ensures var e := WriteEach(d, fs, collection, resources, values, marshal);
      var r := ReadAll(e.driver, e.fs, collection);
      && r.Ok? && |r.value| == |resources|
      && (forall i :: 0 <= i < |values| ==> marshal(values[i]).Some?)
      && (forall b :: b in r.value <==> b in Encodings(values, marshal))
      && InNameOrder(r.value, resources, values, marshal)
  {
    var e := WriteEach(d, fs, collection, resources, values, marshal);
    var dir := CollectionDir(d, collection);
    assert CollectionDir(e.driver, collection) == dir;
    WriteEachListing(d, fs, collection, resources, values, marshal);
    assert Children(e.fs, dir) == Finals(resources);
    WriteEachContents(d, fs, collection, resources, values, marshal);
    ReadAllOfRecords(e.driver, e.fs, collection, resources, values, marshal);
  }

  /** A collection directory holding exactly the record files of distinct
      resources, each holding the encoding of its value, reads as exactly
      those encodings, in the sorted order of their file names. */
  lemma ReadAllOfRecords<T>(d: Driver, fs: FileSystem, collection: string, resources: seq<string>, values: seq<T>,
                            marshal: T -> Option<Bytes>)
    requires |resources| == |values| && Distinct(resources)
    requires collection != "" && IsDirAt(fs, CollectionDir(d, collection))
    requires Children(fs, CollectionDir(d, collection)) == Finals(resources)
    requires forall i :: 0 <= i < |resources| ==> Encoded(fs, CollectionDir(d, collection), resources[i], values[i], marshal)
    ensures var r := ReadAll(d, fs, collection);
      && r.Ok? && |r.value| == |resources|
      && (forall b :: b in r.value <==> b in Encodings(values, marshal))
      && InNameOrder(r.value, resources, values, marshal)
  {
    var dir := CollectionDir(d, collection);
    FinalsCount(resources);
    RecordsAreFiles(fs, dir, resources, values, marshal);
    ReadAllListing(d, fs, collection);
    var r := ReadAll(d, fs, collection);
    assert r.Ok? && |r.value| == |resources|;
    var names := Names.Sorted(Children(fs, dir));
    EncodingsListed(fs, dir, resources, values, marshal, names, r.value);
    assert names == Names.Sorted(Finals(resources));
    forall k, i | 0 <= k < |names| && 0 <= i < |resources| && names[k] == resources[i] + Extension
      ensures r.value[k] == marshal(values[i]).value + [Newline]
    {
      assert Encoded(fs, dir, resources[i], values[i], marshal);
    }
  }

  /** `bodies` lists one encoded record per resource in the order a directory
      listing sorts their file names: the k-th body is the encoding of the
      value of the resource whose record file is the k-th name. */
  predicate InNameOrder<T>(bodies: seq<Bytes>, resources: seq<string>, values: seq<T>, marshal: T -> Option<Bytes>)
    requires |resources| == |values|
  {
    var names := Names.Sorted(Finals(resources));
    && |bodies| == |names|
    && forall k, i :: 0 <= k < |names| && 0 <= i < |resources| && names[k] == resources[i] + Extension ==>
         marshal(values[i]).Some? && bodies[k] == marshal(values[i]).value + [Newline]
  }

  /** Bodies read entry by entry from a directory holding exactly the record
      files of `resources` are exactly the encodings of `values`. */
  lemma EncodingsListed<T>(fs: FileSystem, dir: Path, resources: seq<string>, values: seq<T>,
                           marshal: T -> Option<Bytes>, names: seq<string>, bodies: seq<Bytes>)
    requires |resources| == |values|
    requires forall i :: 0 <= i < |resources| ==> Encoded(fs, dir, resources[i], values[i], marshal)
    requires |bodies| == |names|
    requires forall k :: 0 <= k < |names| ==>
      names[k] in Finals(resources) && IsFileAt(fs, dir + [names[k]]) && bodies[k] == fs[dir + [names[k]]].bytes
    requires forall r :: r in resources ==> r + Extension in names
    ensures forall b :: b in bodies <==> b in Encodings(values, marshal)
  {
    forall b | b in bodies
      ensures b in Encodings(values, marshal)
    {
      var k :| 0 <= k < |bodies| && bodies[k] == b;
      var r :| r in resources && r + Extension == names[k];
      var i :| 0 <= i < |resources| && resources[i] == r;
      assert Encoded(fs, dir, resources[i], values[i], marshal);
    }
    forall b | b in Encodings(values, marshal)
      ensures b in bodies
    {
      var i :| 0 <= i < |values| && marshal(values[i]).Some? && b == marshal(values[i]).value + [Newline];
      assert Encoded(fs, dir, resources[i], values[i], marshal);
      assert resources[i] in resources;
      var k :| 0 <= k < |names| && names[k] == resources[i] + Extension;
      assert bodies[k] == b;
    }
  }

  /** Entries named after record files of resources that are regular files
      make every entry of the directory a regular file. */
  lemma RecordsAreFiles<T>(fs: FileSystem, dir: Path, resources: seq<string>, values: seq<T>, marshal: T -> Option<Bytes>)
    requires |resources| == |values| && Children(fs, dir) == Finals(resources)
    requires forall i :: 0 <= i < |resources| ==> Encoded(fs, dir, resources[i], values[i], marshal)
    ensures forall n :: n in Children(fs, dir) ==> IsFileAt(fs, dir + [n])
  {
    forall n | n in Children(fs, dir)
      ensures IsFileAt(fs, dir + [n])
    {
      var r :| r in resources && r + Extension == n;
      var i :| 0 <= i < |resources| && resources[i] == r;
      assert Encoded(fs, dir, resources[i], values[i], marshal);
    }
  }

  /** `ReadAll` of a directory of regular files, entry by entry: the k-th
      body is the k-th name's file, and every entry is listed. */
  lemma ReadAllListing(d: Driver, fs: FileSystem, collection: string)
    requires collection != "" && IsDirAt(fs, CollectionDir(d, collection))
    requires forall n :: n in Children(fs, CollectionDir(d, collection)) ==> IsFileAt(fs, CollectionDir(d, collection) + [n])
    ensures var r := ReadAll(d, fs, collection); var dir := CollectionDir(d, collection);
      var names := Names.Sorted(Children(fs, dir));
      && r.Ok? && |r.value| == |names| == |Children(fs, dir)|
      && (forall k :: 0 <= k < |names| ==>
            names[k] in Children(fs, dir) && IsFileAt(fs, dir + [names[k]]) && r.value[k] == fs[dir + [names[k]]].bytes)
      && (forall n :: n in Children(fs, dir) ==> n in names)
  {
  }
}

=== FILE: registry.dfy ===
/** The driver's mutex registry: one lock per collection name, created on
    first use and never removed.

    A lock is modelled by its identity only; blocking, lock and unlock are
    not modelled. `next` is the identity the next new lock receives, which
    stands for allocating a fresh `sync.Mutex`.
 */
module Registry {

  type Lock = nat

  datatype Locks = Locks(locks: map<string, Lock>, next: nat)

  /** Every lock was allocated before `next`, and no two collections share one. */
  predicate Allocated(m: Locks) {
    && (forall c :: c in m.locks ==> m.locks[c] < m.next)
    && (forall a, b :: a in m.locks && b in m.locks && a != b ==> m.locks[a] != m.locks[b])
  }

  type Mutexes = m: Locks | Allocated(m) witness Locks(map[], 0)

  /** The registry of a freshly constructed driver. */
  function Empty(): (m: Mutexes)
    ensures m.locks == map[]
  {
    Locks(map[], 0)
  }

  /** `Driver.GetOrCreateMutex`: the lock of `collection`, created and
      registered when there is none yet. */
  function GetOrCreateMutex(m: Mutexes, collection: string): (r: (Lock, Mutexes))
    ensures collection in r.1.locks && r.1.locks[collection] == r.0
    ensures collection in m.locks ==> r.0 == m.locks[collection] && r.1 == m
    ensures collection !in m.locks ==> r.0 !in m.locks.Values
    ensures collection !in m.locks ==> r.1.locks == m.locks[collection := r.0]
    ensures forall c :: c in r.1.locks && c != collection ==> r.1.locks[c] != r.0
  {
    if collection in m.locks then (m.locks[collection], m)
    else
      var lock := m.next;
      (lock, Locks(m.locks[collection := lock], m.next + 1))
  }

  /** Asking again for the same collection returns the same lock and leaves
      the registry as the first call left it. */
  lemma GetOrCreateMutexIdempotent(m: Mutexes, collection: string)
    ensures GetOrCreateMutex(GetOrCreateMutex(m, collection).1, collection) == GetOrCreateMutex(m, collection)
  {
  }

  /** The registry gains at most one key, and every other key keeps its lock. */
  lemma GetOrCreateMutexGrowsByOne(m: Mutexes, collection: string)
    ensures var m' := GetOrCreateMutex(m, collection).1;
      && m'.locks.Keys == m.locks.Keys + {collection}
      && |m'.locks| <= |m.locks| + 1
      && forall c :: c in m.locks ==> m'.locks[c] == m.locks[c]
  {
    var m' := GetOrCreateMutex(m, collection).1;
    if collection !in m.locks {
      assert m'.locks.Keys == m.locks.Keys + {collection};
    }
  }
}

=== FILE: results.dfy ===
/** Errors and results of the driver and of the filesystem calls it makes. */
module Results {
  import opened Paths

  /** The error values the driver returns. `Validation` carries the driver's
      own message; the path-carrying kinds stand for the operating system's
      errors (ENOENT, ENOTDIR, EISDIR, EEXIST, ENOTEMPTY, EINVAL). */
  datatype Error =
    | Validation(message: string)
    | NotExist(path: Path)
    | NotDir(path: Path)
    | IsDir(path: Path)
    | Exist(path: Path)
    | NotEmpty(path: Path)
    | Invalid(path: Path)
    | NotFound(path: Path)
    | Codec

  datatype Result<+T> = Ok(value: T) | Err(error: Error)

  datatype Option<+T> = None | Some(value: T)
}
